=== FILE: README.md ===
# Friendship relationship state machine

A Dafny model of the core of a small social-graph REST service: users send
each other friendship requests, the recipient accepts or rejects them, a
request answered by a request in the opposite direction turns into a
friendship, friendships can be listed and removed, and the relation with any
user can be looked up by username.

The store holds users and directed edges `(id, sender, recipient, accept)`.
`accept` is a nullable boolean: unset while the request is pending, true once
accepted, false once rejected. Every operation is a pure function from a store
(`Models.World`) and an already-authenticated actor to a new store, or to a
typed error (`Errors.Error`, answered 400 or 404).

The service exists in two revisions, `api` and `app`. They run the same
machine and differ in two places, which the model exposes as
`Filters.Variant`:

- the direction filter on the pending list. In `api`, `is_incoming` and
  `is_outgoing` are boolean filters applied one after the other, so both
  together intersect. In `app`, only key presence counts, and both keys or
  neither leave the list unchanged;
- a relation lookup that finds no edge: not found (404) in `api`, an empty
  success (204) in `app`.

Modules, following the source files:

- `Results`: `Option` and `Result`.
- `Errors`: the error kinds and their HTTP status codes.
- `Models` (models.py): users, edges and the world; the store
  invariant (`Valid`: unique usernames and unique ordered pairs, which the
  database enforces, plus consistent ids, existing endpoints, no
  self-requests and ordered stamps, which the operations maintain); row insert, save and delete with id and stamp
  bookkeeping; registration; user deletion with cascade.
- `Filters` (both filters.py): incoming/outgoing narrowing in both revisions.
- `Serializers` (both serializers.py): validation of create and respond
  requests, and the status label.
- `Views` (both views.py): the operations themselves.
- `Invariants`: every operation keeps `Valid`.
- `Behaviour`: what the endpoints promise, stated over all valid stores.

Modelling choices:

- The random UUID primary key is a counter `nextId`. `Valid` keeps it above
  every id in use, so an inserted row always gets an unused id, and ids are
  never rewritten.
- Timestamps are a counter `clock`. Every insert or save advances it. An
  insert stamps both `createdAt` and `updatedAt`; a save stamps only
  `updatedAt`.
- `.first()` on an unordered query set takes the row with the lowest primary
  key, as the ORM does. For the mutual request the ordered-pair constraint
  leaves at most one candidate anyway. For the relation lookup it does not
  (see `QueryRelation` under "Left out").
- A create request is validated in the serializer's order: the target field
  is required, then it must be an existing user, then the unique-together
  check on (actor, target) runs, then the self-request check. Only after that
  does the view look for a pending reverse request.
- A decision is looked up through the view's query set after the filter
  backend. So only a pending edge the actor is party to can be found, and the
  list's query flags narrow the lookup too. A partial update (PATCH) may omit
  the decision. It then saves the row unchanged, with a fresh modification
  stamp.
- The username is a text field that trims surrounding whitespace before
  any check, so registration checks and stores the trimmed name
  (`Models.Strip`).
- In the `api` revision a `Filters.Flags` field holds the parsed boolean
  value (false when absent or unparseable). In `app` it says whether the
  query key is present.

Behaviour of the code that a reader might not expect:

- Uniqueness covers only the ordered pair (sender, recipient). A request
  whose reverse edge is already accepted or rejected is not reconciled; it
  inserts a second, pending edge between the same two users
  (`Behaviour.DecidedReverseNotReconciled`).
- A decision on an already-decided request is answered not found (404). The
  edge is looked up among the actor's pending edges only
  (`Behaviour.RespondNotFound`).
- An unfriend by a user who is not party to the edge is answered not found
  (404). The edge is outside the actor's query set (`Views.Unfriend`).
- The mutual request accepts the first requester's row in place, so the
  surviving edge has the first requester as sender
  (`Behaviour.MutualRequestAccepted`, `Behaviour.MutualScenario`). The `app`
  test of the mutual case (case/app/tests.py:109-128) expects one edge after
  the second request, which the code delivers, but then looks that edge up
  with the *second* requester as sender, which matches no row.
- The relation tests expect the labels `Friends`, `Waiting response` and
  `Rejected`. The serializers produce other strings. Only the three-way
  classification is modelled.
- case/app/models.py names the edge model `FriendshipRequest`, its
  recipient column `user_reseiver` and its status column `accept`. The views
  and serializers name them `FriendshipRelation`, `user_recipient` and
  `accept`, `accept_is` or `is_accepted`. All of these are the same
  `Edge.recipient` and `Edge.accept`.

## Model

| member | source | states |
|---|---|---|
| Models.InsertEdge | case/app/models.py:10-13 | a new row gets an id no existing row has (above all of them), both stamps set to the current time, status defaulting to pending; all other rows are kept |
| Models.SaveEdge | case/app/models.py:12-13 | saving a row refreshes its modification stamp to a time later than every stamp already stored; no row is added or removed |
| Models.DeleteEdge | case/api/views.py:64-68 | deleting a row removes exactly that key and leaves every other row as it was |
| Models.LookupUsername | case/api/views.py:94-95 | a username resolves to the user with that name, none exactly when no user has it, and under unique usernames the only such user |
| Models.Strip | case/api/serializers.py:8-13 | the username field trims whitespace (as Python's `str.isspace` defines it) from both ends: the result is a contiguous piece of the input, everything cut off is whitespace, and it neither starts nor ends with whitespace |
| Models.StripIdempotent | case/api/serializers.py:8-13 | trimming an already trimmed name changes nothing |
| Models.Register | case/app/models.py:23-35 | the username is trimmed first; a trimmed name that is empty or over 150 characters is refused, a taken trimmed name is refused, an acceptable unused one always succeeds; success stores the trimmed name under an unused id, adds exactly that user and touches no edge |
| Models.DeleteUser | case/app/models.py:38-40 | deleting a user removes exactly the edges in which they are sender or recipient, keeps every other edge unchanged |
| Filters.FilterIsIncoming | case/api/filters.py:9-12 | a true value narrows to edges whose recipient is the actor; false or absent leaves the set unchanged |
| Filters.FilterIsOutgoing | case/api/filters.py:14-17 | a true value narrows to edges whose sender is the actor; false or absent leaves the set unchanged |
| Filters.ApiFilter | case/api/filters.py:4-17 | an edge survives both filters exactly when it meets the incoming condition if that flag is set and the outgoing condition if that flag is set |
| Filters.AppFilter | case/app/filters.py:9-14 | incoming only narrows to the actor's received edges, outgoing only to the sent ones, both or neither return the set unchanged |
| Filters.FilterNarrows | case/api/filters.py:9-17 | either revision's filter returns a subset of its input with rows unchanged |
| Filters.FilterIdempotent | case/app/filters.py:9-14 | filtering twice with the same flags equals filtering once, in both revisions |
| Filters.NoFlagsUnchanged | case/api/filters.py:9-17 | with no flag set, neither revision narrows the set |
| Filters.ApiBothFlagsEmpty | case/api/filters.py:9-17 | both flags together select edges the actor both sent and received, so on a store without self-requests the result is empty |
| Filters.AppBothFlagsUnchanged | case/app/filters.py:10-14 | both keys present returns the set unchanged |
| Filters.InOutPartition | case/app/filters.py:10-13 | on edges that all involve the actor, incoming-only and outgoing-only results are disjoint, cover the set and their sizes add up to its size |
| Serializers.Classify | case/app/serializers.py:70-74 | the status shown for an edge is accepted for true, waiting for unset and rejected for false, so the label determines the column value (`StatusOf` recovers it) |
| Serializers.PairExists | case/app/models.py:43-44 | the unique-together check finds a conflict exactly when some stored edge has that sender and that recipient, whatever its status |
| Serializers.ClassifyBijective | case/api/serializers.py:63-67 | true maps to accepted, unset to waiting, false to rejected; the map is total, one-to-one and onto, with `StatusOf` as its inverse |
| Serializers.ValidateCreate | case/api/serializers.py:22-56 | missing target, unknown target, an existing edge in the same direction and a self-request are refused in that order; otherwise the named target is the validated recipient |
| Serializers.ValidateResponse | case/api/serializers.py:74-90 | a full update without a boolean decision is refused, anyone but the recipient is refused, otherwise the new status is the decision (or the stored one for a partial update without it) |
| Views.PendingFor | case/api/views.py:38-43 | the request query set is exactly the pending edges in which the actor is sender or recipient |
| Views.Between | case/api/views.py:96-99 | exactly the edges from actor to user or from user to actor, any status |
| Views.FirstKey | case/app/views.py:98-101 | `.first()` finds nothing only on an empty query set, and otherwise a member with the lowest key |
| Views.MutualRequest | case/api/views.py:51-55 | the reconciliation candidate is a pending edge from target to actor, and there is none exactly when every edge from target to actor is decided |
| Views.CreateRequest | case/api/views.py:50-61 | fails exactly when validation fails, with validation's own error; on success users are unchanged and the returned row is stored: either a new pending actor-to-target edge or an accepted target-to-actor edge |
| Views.ListPending | case/app/views.py:36-42 | every listed edge is a stored pending edge involving the actor |
| Views.Respond | case/api/views.py:38-48 | an id outside the actor's filtered pending set is not found; success means the actor is the recipient of that pending edge; the row keeps its id, endpoints and creation stamp, gets a fresh modification stamp and the decision (or keeps its status when a partial update carries none), and no other row changes |
| Views.ListAccepted | case/app/views.py:72-77 | the friendship list is exactly the accepted edges in which the actor is sender or recipient |
| Views.Unfriend | case/api/views.py:64-79 | a missing, non-accepted or foreign edge is not found; success deletes exactly that edge and keeps users and all other edges |
| Views.QueryRelation | case/app/views.py:88-102 | an unknown username is not found; with an edge between the actor and the named user one such stored edge is shown with its status label, and a shown edge always lies between the two; with none, the api revision answers not found and the app revision no relation |
| Views.RelationStatusCode | case/app/views.py:88-93 | no relation answers 204, a relation 200, an error its own code |
| Errors.StatusCode | case/app/tests.py:495-503 | not-found errors answer 404 and every other error 400 |
| Invariants.InsertPreservesValid | case/app/models.py:43-44 | inserting an edge between two distinct existing users with no edge in that direction keeps the store invariant, including ordered-pair uniqueness |
| Invariants.SavePreservesValid | case/app/models.py:10-13 | saving a row with unchanged endpoints and creation stamp keeps the store invariant |
| Invariants.CreatePreservesValid | case/api/views.py:50-61 | creating a request keeps the store invariant |
| Invariants.RespondPreservesValid | case/app/serializers.py:81-97 | deciding a request keeps the store invariant |
| Invariants.UnfriendPreservesValid | case/app/views.py:63-77 | removing a friendship keeps the store invariant |
| Invariants.EmptyStoreValid | case/app/models.py:10-44 | the empty store, with no users and no edges, satisfies the store invariant, so every store reached by the operations does |
| Invariants.RegisterPreservesValid | case/app/models.py:23-35 | registering keeps usernames unique and every other constraint |
| Invariants.DeleteUserPreservesValid | case/app/models.py:39-40 | deleting a user with cascade leaves no dangling endpoint and keeps every constraint |
| Behaviour.SelfRequestRefused | case/app/tests.py:130-141 | a request to oneself is refused with 400 and no edge is created |
| Behaviour.MissingTargetRefused | case/api/serializers.py:24-30 | a create request without a target is refused with 400, whatever sender or status fields it carries |
| Behaviour.UnknownTargetRefused | case/api/serializers.py:24-30 | a target id that names no user is refused with 400 |
| Behaviour.DuplicateRequestRefused | case/app/tests.py:143-158 | a second request in the same direction is refused with 400 whatever the first one's status, leaving the edges unchanged |
| Behaviour.ExtraFieldsIgnored | case/app/tests.py:171-190 | client-supplied sender or status fields do not change the outcome of a create request |
| Behaviour.MutualRequestIsUnique | case/api/views.py:51-55 | a pending edge from target to actor is the one reconciliation picks |
| Behaviour.MutualRequestAccepted | case/app/views.py:49-60 | with a pending target-to-actor edge, create accepts that row in place: same id, endpoints and creation stamp, refreshed modification stamp, same number of edges, other rows unchanged |
| Behaviour.NewRequestInserted | case/app/tests.py:91-107 | without a pending reverse edge, create inserts exactly one pending actor-to-target edge under a fresh id, stamped now, one more edge in total |
| Behaviour.DecidedReverseNotReconciled | case/api/views.py:51-55 | an accepted or rejected reverse edge is not reconciled: a second, pending edge appears between the same two users and the old one is kept |
| Behaviour.MutualScenario | case/app/views.py:49-60 | from no edge between two users, a request each way leaves exactly one edge between them, accepted, sent by the first requester |
| Behaviour.FirstRequestOnlyEdge | case/app/views.py:55-56 | from no edge between two users, one request leaves exactly its new pending edge between them |
| Behaviour.OnlyEdgeAccepted | case/app/views.py:57-60 | when the only edge between two users is a pending request, the reverse request accepts it and adds nothing |
| Behaviour.RespondNotFound | case/api/views.py:38-43 | deciding a missing, already-decided or foreign edge is answered 404 |
| Behaviour.SenderCannotRespond | case/app/tests.py:320-333 | the sender deciding their own pending request is answered 400 and the status stays pending |
| Behaviour.DecisionRequired | case/app/serializers.py:83-87 | a full update without the boolean decision is answered 400 |
| Behaviour.RecipientDecides | case/app/tests.py:306-318 | the recipient's true accepts and false rejects; only that row's status and modification stamp change |
| Behaviour.PendingListExact | case/app/tests.py:242-251 | without flags the request list is exactly the actor's pending edges in both directions |
| Behaviour.PendingListSplits | case/app/tests.py:253-277 | incoming-only lists the received pending edges, outgoing-only the sent ones, and their sizes add up to the full pending list |
| Behaviour.ApiBothFlagsListNothing | case/api/filters.py:9-17 | in the api revision both flags list nothing, since self-requests are refused |
| Behaviour.AppBothFlagsListAll | case/app/filters.py:14 | in the app revision both keys list the same as no key |
| Behaviour.ListsDisjoint | case/app/tests.py:378-393 | on every store, no edge is both in the pending list and in the friendship list |
| Behaviour.RejectedListedNowhere | case/app/tests.py:378-393 | on every store, a rejected edge is in neither the pending list nor the friendship list |
| Behaviour.UnfriendRemovesOne | case/app/tests.py:405-414 | removing one of the actor's friendships leaves exactly one edge fewer |
| Behaviour.RelationUnknownUser | case/app/tests.py:495-503 | an unknown username is answered 404 in both revisions |
| Behaviour.RelationNone | case/app/tests.py:485-493 | a known user with no edge to the actor: 204 with no relation in the app revision, 404 in the api revision |
| Behaviour.RelationFound | case/app/tests.py:452-483 | a known user with an edge either way: 200 with an edge between the two and its status label, and that edge when it is the only one |
| Behaviour.UsernameTakenRefused | case/app/tests.py:58-74 | registering a username that is taken once trimmed is refused with 400 and adds no user |
| Behaviour.TrimTrailingSpace | case/api/serializers.py:8-13 | the username field turns "bob " into "bob" |
| Behaviour.PaddedNameTaken | case/app/models.py:23-35 | with "bob" registered, "bob " is refused as taken, since the unique check sees the trimmed name |
| Behaviour.BlankUsernameRefused | case/app/models.py:23-35 | a username of whitespace only is blank once trimmed and is refused with 400 |
| Behaviour.RegisterAddsOne | case/app/tests.py:43-56 | a username that is acceptable and unused once trimmed registers: one user with the trimmed name is added under a new id, and usernames stay unique |
| Behaviour.DeletedUserHasNoRelations | case/app/models.py:39-40 | after a user is deleted nobody has a pending request or friendship with them |

## Left out

- Authentication: token issuance, the `IsAuthenticated` gate and its 401 answers. Every operation receives an already-authenticated actor who is an existing user.
- The password field of registration (required, then hashed by the framework's auth library).
- Models.Register: does not check the username character set (letters, digits and `@.+-_` in any script, case/app/models.py:21,31), so a name such as "bob!" or "a b" registers in the model where the source answers 400. It trims the name and then checks only presence, the 150-character limit and uniqueness.
- Serialization shape: nested user dictionaries, stamps in the output and the exact label strings. Labels are the three-constructor `Serializers.Label`. The one-element tuple in the accept serializer's output is a representation quirk and is not modelled.
- HTTP routing, URL names and API documentation.
- Retrieve endpoints. Neither `FriendshipRequestViewSet` nor `FriendshipViewSet` mixes in retrieve, so the tests that call retrieve reach no endpoint of these viewsets.
- List ordering. Lists are modelled as maps keyed by id. `.first()` takes the lowest id.
- Parsing of the `api` query string. The boolean filter's widget turns any value other than a true or false spelling into no value, and the filter methods then leave the set unchanged, exactly as for an absent flag. `Filters.Flags` holds the outcome, with false for absent or unparseable.
- A malformed target id in a create body is folded into `requestTo == None` (`FieldRequired`). Both answer 400.
- The check-then-act race between two concurrent opposite-direction requests. Each operation is atomic here.
- The users' own creation and modification stamps, which no core operation reads.
- Views.QueryRelation: when there is an edge in each direction (possible after `Behaviour.DecidedReverseNotReconciled`), the model shows the one with the lowest counter id, which is the older one. The source's `.first()` orders random UUIDs, so which edge, and so which label, it shows is arbitrary. The contract promises only that some edge between the two users is shown.
- Serializers.ValidateResponse: `decision` cannot tell an absent decision from an explicit `null` or a non-boolean value. In the source the decision is a plain boolean field (case/api/serializers.py:76-80), so a partial update carrying `null` or a non-boolean is answered 400. The model's `Respond` with no decision and `partial` succeeds and leaves the status as it was.
- The framework's default filter backends on the friendship viewset. The model assumes none are configured.


=== FILE: behaviour.dfy ===
/**
  What the endpoints promise, stated over all stores that satisfy the store
  invariant `Valid`: which requests are refused and with which status code, which
  row survives a mutual request, what each list contains, and what the
  relation lookup answers in each revision.
 */
module Behaviour {
  import opened Results
  import opened Errors
  import opened Models
  import opened Filters
  import opened Serializers
  import opened Views
  import opened Invariants

  /** A create request naming only its target. */
  function RequestTo(target: UserId): CreateBody {
    CreateBody(Some(target), None, None)
  }

  // ---------------------------------------------------------------------------
  // Creating requests
  // ---------------------------------------------------------------------------

  /** A request to oneself is refused with 400 and creates nothing. */
  lemma SelfRequestRefused(w: World, actor: UserId, body: CreateBody)
    requires Valid(w) && actor in w.users
    requires body.requestTo == Some(actor)
    ensures CreateRequest(w, actor, body) == Err(SelfRequest)
    ensures StatusCode(SelfRequest) == 400
  {
    assert !PairExists(w.edges, actor, actor) by {
      assert forall k :: k in w.edges ==> w.edges[k].sender != w.edges[k].recipient;
    }
  }

  /** A create request without a target is refused with 400, whatever else it carries. */
  lemma MissingTargetRefused(w: World, actor: UserId, body: CreateBody)
    requires Valid(w) && actor in w.users
    requires body.requestTo.None?
    ensures CreateRequest(w, actor, body) == Err(FieldRequired)
    ensures StatusCode(FieldRequired) == 400
  {
  }

  /** A target that is not a user is refused with 400. */
  lemma UnknownTargetRefused(w: World, actor: UserId, body: CreateBody)
    requires Valid(w) && actor in w.users
    requires body.requestTo.Some? && body.requestTo.value !in w.users
    ensures CreateRequest(w, actor, body) == Err(UnknownTarget)
    ensures StatusCode(UnknownTarget) == 400
  {
  }

  /**
    A second request in the same direction is refused with 400, whatever
    the status of the first one; since no store is returned, the edges stay
    as they were.
   */
  lemma DuplicateRequestRefused(w: World, actor: UserId, target: UserId, k: EdgeId)
    requires Valid(w) && actor in w.users && target in w.users
    requires k in w.edges && w.edges[k].sender == actor && w.edges[k].recipient == target
    ensures CreateRequest(w, actor, RequestTo(target)) == Err(DuplicateRequest)
    ensures StatusCode(DuplicateRequest) == 400
  {
    assert PairExists(w.edges, actor, target);
  }

  /** Only the target field of a create request matters; the client cannot preset sender or status. */
  lemma ExtraFieldsIgnored(w: World, actor: UserId, body: CreateBody)
    requires Valid(w) && actor in w.users
    ensures CreateRequest(w, actor, body) == CreateRequest(w, actor, CreateBody(body.requestTo, None, None))
  {
  }

  /** The pending request from the target to the actor is the only candidate for reconciliation. */
  lemma MutualRequestIsUnique(w: World, actor: UserId, target: UserId, k: EdgeId)
    requires Valid(w)
    requires k in w.edges && w.edges[k].sender == target && w.edges[k].recipient == actor && w.edges[k].IsPending()
    ensures MutualRequest(w.edges, actor, target) == Some(k)
  {
    var m := MutualRequest(w.edges, actor, target);
    assert m.Some?;
    assert w.edges[m.value].sender == w.edges[k].sender && w.edges[m.value].recipient == w.edges[k].recipient;
  }

  /**
    Mutual reconciliation: when the target already has a pending request to
    the actor, that row is accepted in place and returned. Its id, endpoints
    and creation stamp are kept, its modification stamp is refreshed, no row
    is added and no other row changes.
   */
  lemma MutualRequestAccepted(w: World, actor: UserId, target: UserId, k: EdgeId)
    requires Valid(w) && actor in w.users && target in w.users && actor != target
    requires !PairExists(w.edges, actor, target)
    requires k in w.edges && w.edges[k].sender == target && w.edges[k].recipient == actor && w.edges[k].IsPending()
    ensures var r := CreateRequest(w, actor, RequestTo(target));
            && r.Ok?
            && r.value.edge.id == k
            && r.value.edge.accept == Some(true)
            && r.value.edge.sender == target && r.value.edge.recipient == actor
            && r.value.edge.createdAt == w.edges[k].createdAt
            && r.value.edge.updatedAt > w.edges[k].updatedAt
            && r.value.world.edges.Keys == w.edges.Keys
            && |r.value.world.edges| == |w.edges|
            && (forall j :: j in w.edges && j != k ==> r.value.world.edges[j] == w.edges[j])
  {
    MutualRequestIsUnique(w, actor, target, k);
    var r := CreateRequest(w, actor, RequestTo(target));
    assert r.value == SaveEdge(w, w.edges[k].(accept := Some(true)));
    assert |r.value.world.edges.Keys| == |w.edges.Keys|;
  }

  /**
    Without a pending request from the target, exactly one row is added: a
    fresh id, the actor as sender, the target as recipient, status pending,
    both stamps set to the current time. Every existing row is kept as it was.
   */
  lemma NewRequestInserted(w: World, actor: UserId, target: UserId)
    requires Valid(w) && actor in w.users && target in w.users && actor != target
    requires !PairExists(w.edges, actor, target)
    requires forall k :: k in w.edges && w.edges[k].sender == target && w.edges[k].recipient == actor ==>
               !w.edges[k].IsPending()
    ensures var r := CreateRequest(w, actor, RequestTo(target));
            && r.Ok?
            && r.value.edge.id !in w.edges
            && r.value.edge.sender == actor && r.value.edge.recipient == target
            && r.value.edge.accept == None
            && r.value.edge.createdAt == r.value.edge.updatedAt == w.clock
            && r.value.world.edges.Keys == w.edges.Keys + {r.value.edge.id}
            && |r.value.world.edges| == |w.edges| + 1
            && (forall j :: j in w.edges ==> r.value.world.edges[j] == w.edges[j])
  {
    var r := CreateRequest(w, actor, RequestTo(target));
    assert MutualRequest(w.edges, actor, target).None?;
    assert r.value == InsertEdge(w, actor, target);
  }

  /**
    Reconciliation only picks up a pending request. If the target's earlier
    request was already accepted or rejected, the actor's request becomes a
    second, pending row between the same two users.
   */
  lemma DecidedReverseNotReconciled(w: World, actor: UserId, target: UserId, k: EdgeId)
    requires Valid(w) && actor in w.users && target in w.users && actor != target
    requires !PairExists(w.edges, actor, target)
    requires k in w.edges && w.edges[k].sender == target && w.edges[k].recipient == actor && !w.edges[k].IsPending()
    ensures var r := CreateRequest(w, actor, RequestTo(target));
            && r.Ok?
            && r.value.edge.accept == None
            && r.value.edge.id != k
            && r.value.world.edges[k] == w.edges[k]
            && r.value.edge.id in Between(r.value.world.edges, actor, target)
            && k in Between(r.value.world.edges, actor, target)
  {
    assert forall j :: j in w.edges && w.edges[j].sender == target && w.edges[j].recipient == actor ==> j == k;
    NewRequestInserted(w, actor, target);
  }

  /**
    The mutual scenario end to end: with no edge between two users, the first
    user's request followed by the second user's request leaves exactly one
    edge between them, accepted, with the first user as sender.
   */
  lemma MutualScenario(w: World, a: UserId, b: UserId)
    requires Valid(w) && a in w.users && b in w.users && a != b
    requires Between(w.edges, a, b) == map[]
    ensures var r1 := CreateRequest(w, a, RequestTo(b));
            && r1.Ok?
            && var r2 := CreateRequest(r1.value.world, b, RequestTo(a));
            && r2.Ok?
            && r2.value.edge.id == r1.value.edge.id
            && Between(r2.value.world.edges, a, b).Keys == {r1.value.edge.id}
            && r2.value.edge.sender == a && r2.value.edge.recipient == b
            && r2.value.edge.accept == Some(true)
  {
    FirstRequestOnlyEdge(w, a, b);
    var r1 := CreateRequest(w, a, RequestTo(b));
    OnlyEdgeAccepted(r1.value.world, a, b, r1.value.edge.id);
  }

  /** From no edge between two users, one request leaves exactly that pending edge between them. */
  lemma FirstRequestOnlyEdge(w: World, a: UserId, b: UserId)
    requires Valid(w) && a in w.users && b in w.users && a != b
    requires Between(w.edges, a, b) == map[]
    ensures var r := CreateRequest(w, a, RequestTo(b));
            && r.Ok?
            && Valid(r.value.world)
            && Between(r.value.world.edges, a, b).Keys == {r.value.edge.id}
            && r.value.edge.sender == a && r.value.edge.recipient == b && r.value.edge.IsPending()
  {
    assert !PairExists(w.edges, a, b) by {
      forall j | j in w.edges
        ensures !(w.edges[j].sender == a && w.edges[j].recipient == b)
      {
        assert j !in Between(w.edges, a, b);
      }
    }
    assert forall j :: j in w.edges && w.edges[j].sender == b && w.edges[j].recipient == a ==>
             !w.edges[j].IsPending() by {
      forall j | j in w.edges
        ensures !(w.edges[j].sender == b && w.edges[j].recipient == a)
      {
        assert j !in Between(w.edges, a, b);
      }
    }
    NewRequestInserted(w, a, b);
    CreatePreservesValid(w, a, RequestTo(b));
    var r := CreateRequest(w, a, RequestTo(b));
    OnlyNewEdgeBetween(w.edges, r.value.world.edges, r.value.edge.id, a, b);
  }

  /** Adding one row to a set of edges with nothing between two users leaves that row as the only one between them. */
  lemma OnlyNewEdgeBetween(before: map<EdgeId, Edge>, after: map<EdgeId, Edge>, id: EdgeId, a: UserId, b: UserId)
    requires Between(before, a, b) == map[]
    requires after.Keys == before.Keys + {id}
    requires forall j :: j in before && j != id ==> after[j] == before[j]
    requires after[id].sender == a && after[id].recipient == b
    ensures Between(after, a, b).Keys == {id}
  {
    assert forall j :: j in before ==> j !in Between(before, a, b);
  }

  /** When the only edge between two users is a pending a-to-b request, b's request accepts it and adds nothing. */
  lemma OnlyEdgeAccepted(w: World, a: UserId, b: UserId, k: EdgeId)
    requires Valid(w) && a in w.users && b in w.users && a != b
    requires Between(w.edges, a, b).Keys == {k}
    requires k in w.edges && w.edges[k].sender == a && w.edges[k].recipient == b && w.edges[k].IsPending()
    ensures var r := CreateRequest(w, b, RequestTo(a));
            && r.Ok?
            && r.value.edge.id == k
            && Between(r.value.world.edges, a, b).Keys == {k}
            && r.value.edge.sender == a && r.value.edge.recipient == b
            && r.value.edge.accept == Some(true)
  {
    assert !PairExists(w.edges, b, a) by {
      forall j | j in w.edges
        ensures !(w.edges[j].sender == b && w.edges[j].recipient == a)
      {
        assert (j in Between(w.edges, a, b)) == (j == k);
      }
    }
    MutualRequestAccepted(w, b, a, k);
    var r := CreateRequest(w, b, RequestTo(a));
    SameEdgeBetween(w.edges, r.value.world.edges, k, a, b);
  }

  /** Rewriting one row in place, endpoints kept, leaves the rows between two users as they were. */
  lemma SameEdgeBetween(before: map<EdgeId, Edge>, after: map<EdgeId, Edge>, k: EdgeId, a: UserId, b: UserId)
    requires Between(before, a, b).Keys == {k}
    requires after.Keys == before.Keys
    requires forall j :: j in before && j != k ==> after[j] == before[j]
    requires after[k].sender == before[k].sender && after[k].recipient == before[k].recipient
    ensures Between(after, a, b).Keys == {k}
  {
    assert forall j :: j in before ==> (j in Between(before, a, b) <==> j == k);
  }

  // ---------------------------------------------------------------------------
  // Deciding requests
  // ---------------------------------------------------------------------------

  /** An edge that is missing, already decided, or not the actor's cannot be found for a decision (404). */
  lemma RespondNotFound(w: World, variant: Variant, actor: UserId, flags: Flags, id: EdgeId,
                        decision: Option<bool>, partial: bool)
    requires Valid(w)
    requires id !in w.edges || !w.edges[id].IsPending() || !w.edges[id].Involves(actor)
    ensures Respond(w, variant, actor, flags, id, decision, partial) == Err(NotFound)
    ensures StatusCode(NotFound) == 404
  {
  }

  /** The sender of a pending request cannot decide it: 400, and the status stays pending. */
  lemma SenderCannotRespond(w: World, variant: Variant, actor: UserId, id: EdgeId, decision: bool)
    requires Valid(w)
    requires id in w.edges && w.edges[id].sender == actor && w.edges[id].IsPending()
    ensures Respond(w, variant, actor, NoFlags, id, Some(decision), false) == Err(NotRecipient)
    ensures StatusCode(NotRecipient) == 400
  {
    NoFlagsUnchanged(variant, PendingFor(w.edges, actor), actor);
  }

  /** A full update without the boolean decision is refused with 400. */
  lemma DecisionRequired(w: World, variant: Variant, actor: UserId, id: EdgeId)
    requires Valid(w)
    requires id in w.edges && w.edges[id].Involves(actor) && w.edges[id].IsPending()
    ensures Respond(w, variant, actor, NoFlags, id, None, false) == Err(FieldRequired)
  {
    NoFlagsUnchanged(variant, PendingFor(w.edges, actor), actor);
  }

  /**
    The recipient decides: true accepts, false rejects. Only the status and
    the modification stamp of that row change; no row is added or removed.
   */
  lemma RecipientDecides(w: World, variant: Variant, actor: UserId, id: EdgeId, decision: bool)
    requires Valid(w)
    requires id in w.edges && w.edges[id].recipient == actor && w.edges[id].IsPending()
    ensures var r := Respond(w, variant, actor, NoFlags, id, Some(decision), false);
            && r.Ok?
            && r.value.edge == w.edges[id].(accept := Some(decision), updatedAt := w.clock)
            && r.value.edge.updatedAt > w.edges[id].updatedAt
            && Classify(r.value.edge.accept) == (if decision then Accepted else Rejected)
            && r.value.world.edges.Keys == w.edges.Keys
            && (forall j :: j in w.edges && j != id ==> r.value.world.edges[j] == w.edges[j])
  {
    NoFlagsUnchanged(variant, PendingFor(w.edges, actor), actor);
  }

  // ---------------------------------------------------------------------------
  // Lists
  // ---------------------------------------------------------------------------

  /** Without flags the request list is exactly the actor's pending edges, in either direction. */
  lemma PendingListExact(w: World, variant: Variant, actor: UserId)
    ensures var r := ListPending(w, variant, actor, NoFlags);
            forall k :: k in r <==> k in w.edges && w.edges[k].IsPending() && w.edges[k].Involves(actor)
  {
    NoFlagsUnchanged(variant, PendingFor(w.edges, actor), actor);
  }

  /**
    With one flag the request list splits the pending edges into those the
    actor received and those the actor sent; the two sizes add up to the
    unfiltered list. Both revisions agree on this.
   */
  lemma PendingListSplits(w: World, variant: Variant, actor: UserId)
    requires Valid(w)
    ensures var ins := ListPending(w, variant, actor, Flags(true, false));
            var outs := ListPending(w, variant, actor, Flags(false, true));
            var all := ListPending(w, variant, actor, NoFlags);
            && (forall k :: k in ins <==> k in all && all[k].recipient == actor)
            && (forall k :: k in outs <==> k in all && all[k].sender == actor)
            && |ins| + |outs| == |all|
  {
    var q := PendingFor(w.edges, actor);
    NoFlagsUnchanged(variant, q, actor);
    InOutPartition(variant, q, actor);
  }

  /** Both flags: the `api` revision intersects the two filters and so lists nothing. */
  lemma ApiBothFlagsListNothing(w: World, actor: UserId)
    requires Valid(w)
    ensures ListPending(w, Api, actor, Flags(true, true)) == map[]
  {
    ApiBothFlagsEmpty(PendingFor(w.edges, actor), actor);
  }

  /** Both flags: the `app` revision lists every pending edge, as with no flag. */
  lemma AppBothFlagsListAll(w: World, actor: UserId)
    ensures ListPending(w, App, actor, Flags(true, true)) == ListPending(w, App, actor, NoFlags)
  {
  }

  /** An edge is never both a pending request and a friendship. */
  lemma ListsDisjoint(w: World, variant: Variant, actor: UserId, flags: Flags)
    ensures ListPending(w, variant, actor, flags).Keys !! ListAccepted(w, actor).Keys
  {
  }

  /** A rejected request is listed nowhere: not among the pending requests, not among the friendships. */
  lemma RejectedListedNowhere(w: World, variant: Variant, actor: UserId, flags: Flags)
    ensures forall k :: k in w.edges && w.edges[k].accept == Some(false) ==>
              k !in ListPending(w, variant, actor, flags) && k !in ListAccepted(w, actor)
  {
  }

  // ---------------------------------------------------------------------------
  // Removing friendships
  // ---------------------------------------------------------------------------

  /** Removing one of the actor's friendships deletes exactly that row (204). */
  lemma UnfriendRemovesOne(w: World, actor: UserId, id: EdgeId)
    requires Valid(w)
    requires id in ListAccepted(w, actor)
    ensures var r := Unfriend(w, actor, id);
            && r.Ok?
            && r.value.edges.Keys == w.edges.Keys - {id}
            && |r.value.edges| == |w.edges| - 1
  {
    var r := Unfriend(w, actor, id);
    assert r.value.edges.Keys + {id} == w.edges.Keys;
    assert |r.value.edges.Keys| + 1 == |w.edges.Keys|;
  }

  // ---------------------------------------------------------------------------
  // Relation lookup
  // ---------------------------------------------------------------------------

  /** A username nobody has is answered 404 in both revisions. */
  lemma RelationUnknownUser(w: World, variant: Variant, actor: UserId, name: string)
    requires forall u :: u in w.users ==> w.users[u].username != name
    ensures QueryRelation(w, variant, actor, name) == Err(NotFound)
    ensures RelationStatusCode(QueryRelation(w, variant, actor, name)) == 404
  {
  }

  /**
    A known user with no edge to the actor: the `app` revision answers an
    empty success (204), the `api` revision not found (404).
   */
  lemma RelationNone(w: World, actor: UserId, other: UserId, name: string)
    requires Valid(w)
    requires other in w.users && w.users[other].username == name
    requires Between(w.edges, actor, other) == map[]
    ensures QueryRelation(w, App, actor, name) == Ok(NoRelation)
    ensures RelationStatusCode(QueryRelation(w, App, actor, name)) == 204
    ensures QueryRelation(w, Api, actor, name) == Err(NotFound)
    ensures RelationStatusCode(QueryRelation(w, Api, actor, name)) == 404
  {
  }

  /**
    A known user with an edge to the actor in either direction: both
    revisions answer 200 with an edge between the two and its label.
    When there is only one such edge, it is that edge.
   */
  lemma RelationFound(w: World, variant: Variant, actor: UserId, other: UserId, name: string, k: EdgeId)
    requires Valid(w)
    requires other in w.users && w.users[other].username == name
    requires k in Between(w.edges, actor, other)
    ensures var r := QueryRelation(w, variant, actor, name);
            && r.Ok? && r.value.Related?
            && r.value.edge.id in Between(w.edges, actor, other)
            && r.value.status == Classify(r.value.edge.accept)
            && RelationStatusCode(r) == 200
            && (Between(w.edges, actor, other).Keys == {k} ==> r.value.edge == w.edges[k])
  {
    var r := QueryRelation(w, variant, actor, name);
    var between := Between(w.edges, actor, other);
    var first := FirstKey(between);
    assert first.Some?;
    assert r.value.edge == between[first.value];
    assert r.value.edge.id == first.value;
  }

  // ---------------------------------------------------------------------------
  // Users
  // ---------------------------------------------------------------------------

  /**
    Registering a username that is taken once trimmed is refused (400) and
    adds no user.
   */
  lemma UsernameTakenRefused(w: World, name: string, u: UserId)
    requires UsernameAcceptable(Strip(name))
    requires u in w.users && w.users[u].username == Strip(name)
    ensures Register(w, name) == Err(UsernameTaken)
    ensures StatusCode(UsernameTaken) == 400
  {
  }

  /** Surrounding whitespace does not make a name new: with "bob" taken, "bob " is refused. */
  lemma PaddedNameTaken(w: World, u: UserId)
    requires u in w.users && w.users[u].username == "bob"
    ensures Register(w, "bob ") == Err(UsernameTaken)
  {
    TrimTrailingSpace();
    assert UsernameAcceptable("bob");
  }

  /** Trimming "bob " gives "bob". */
  lemma TrimTrailingSpace()
    ensures Strip("bob ") == "bob"
  {
    assert !IsWhitespace('b') && IsWhitespace(' ');
    assert TrimStart("bob ") == "bob ";
    assert "bob "[..3] == "bob";
    assert TrimEnd("bob") == "bob";
    assert TrimEnd("bob ") == "bob";
  }

  /** A username made only of whitespace is blank once trimmed, and is refused (400). */
  lemma BlankUsernameRefused(w: World, name: string)
    requires forall k :: 0 <= k < |name| ==> IsWhitespace(name[k])
    ensures Register(w, name) == Err(InvalidUsername)
    ensures StatusCode(InvalidUsername) == 400
  {
  }

  /**
    An acceptable, unused username registers: exactly one user, with the
    trimmed name, is added under a new id, and usernames stay unique.
   */
  lemma RegisterAddsOne(w: World, name: string)
    requires Valid(w)
    requires UsernameAcceptable(Strip(name))
    requires forall u :: u in w.users ==> w.users[u].username != Strip(name)
    ensures var r := Register(w, name);
            && r.Ok?
            && r.value.user.username == Strip(name)
            && r.value.user.id !in w.users
            && |r.value.world.users| == |w.users| + 1
            && UsernamesUnique(r.value.world.users)
  {
    RegisterPreservesValid(w, name);
  }

  /** After a user is deleted, nobody has a pending request or a friendship with them. */
  lemma DeletedUserHasNoRelations(w: World, uid: UserId, actor: UserId, variant: Variant, flags: Flags)
    ensures var w' := DeleteUser(w, uid);
            && ListPending(w', variant, uid, flags) == map[]
            && ListAccepted(w', uid) == map[]
            && forall k :: k in ListAccepted(w', actor) ==> !w'.edges[k].Involves(uid)
  {
    var w' := DeleteUser(w, uid);
    assert forall k :: k !in ListPending(w', variant, uid, flags);
    assert forall k :: k !in ListAccepted(w', uid);
  }
}

=== FILE: errors.dfy ===
/** The errors the core reports, and the HTTP status each one is answered with. */
module Errors {

  datatype Error =
    | FieldRequired      // a required body field is absent
    | UnknownTarget      // `request_friendship_to_user` names no existing user
    | DuplicateRequest   // an edge with the same (sender, recipient) already exists
    | SelfRequest        // a user asked to befriend themself
    | NotRecipient       // someone other than the recipient tried to decide a request
    | NotFound           // the edge or the username is not visible to the actor
    | InvalidUsername    // empty or longer than the column allows
    | UsernameTaken      // another user already has this username

  /** Validation failures are answered 400, lookups that find nothing 404. */
  function StatusCode(e: Error): (code: nat)
    ensures code == 404 <==> e == NotFound
    ensures code == 400 || code == 404
  {
    match e
    case NotFound => 404
    case _ => 400
  }
}

=== FILE: filters.dfy ===
/**
  Narrowing a set of edges to the actor's incoming or outgoing ones.

  The two revisions of the service differ here. The `api` revision has two
  independent boolean filters that are applied one after the other, so both
  flags together mean "incoming AND outgoing". The `app` revision looks only
  at which query keys are present and narrows only when exactly one of them
  is; both or neither leave the set as it is.

  `Flags` carries what the HTTP layer parsed from the query string: in the
  `api` revision each flag is the parsed boolean value (an absent or
  unparseable value counts as false); in the `app` revision each flag says whether the key is present
  at all, whatever its value.
 */
module Filters {
  import opened Models

  /** Which revision of the service is modelled. */
  datatype Variant = Api | App

  datatype Flags = Flags(incoming: bool, outgoing: bool)

  const NoFlags := Flags(false, false)

  /** The edges of `q` addressed to the actor. */
  function Incoming(q: map<EdgeId, Edge>, actor: UserId): (r: map<EdgeId, Edge>)
    ensures forall k :: k in r <==> k in q && q[k].recipient == actor
    ensures forall k :: k in r ==> r[k] == q[k]
  {
    map k | k in q && q[k].recipient == actor :: q[k]
  }

  /** The edges of `q` sent by the actor. */
  function Outgoing(q: map<EdgeId, Edge>, actor: UserId): (r: map<EdgeId, Edge>)
    ensures forall k :: k in r <==> k in q && q[k].sender == actor
    ensures forall k :: k in r ==> r[k] == q[k]
  {
    map k | k in q && q[k].sender == actor :: q[k]
  }

  /** `is_incoming`: narrow to incoming edges when the value is true, otherwise leave the set alone. */
  function FilterIsIncoming(q: map<EdgeId, Edge>, actor: UserId, value: bool): (r: map<EdgeId, Edge>)
    ensures value ==> forall k :: k in r <==> k in q && q[k].recipient == actor
    ensures !value ==> r == q
    ensures forall k :: k in r ==> k in q && r[k] == q[k]
  {
    if value then Incoming(q, actor) else q
  }

  /** `is_outgoing`: narrow to outgoing edges when the value is true, otherwise leave the set alone. */
  function FilterIsOutgoing(q: map<EdgeId, Edge>, actor: UserId, value: bool): (r: map<EdgeId, Edge>)
    ensures value ==> forall k :: k in r <==> k in q && q[k].sender == actor
    ensures !value ==> r == q
    ensures forall k :: k in r ==> k in q && r[k] == q[k]
  {
    if value then Outgoing(q, actor) else q
  }

  /** The `api` filter set: both boolean filters, applied in declaration order. */
  function ApiFilter(q: map<EdgeId, Edge>, actor: UserId, flags: Flags): (r: map<EdgeId, Edge>)
    ensures forall k :: k in r <==>
              && k in q
              && (flags.incoming ==> q[k].recipient == actor)
              && (flags.outgoing ==> q[k].sender == actor)
    ensures forall k :: k in r ==> r[k] == q[k]
  {
    FilterIsOutgoing(FilterIsIncoming(q, actor, flags.incoming), actor, flags.outgoing)
  }

  /** The `app` filter backend: narrow only when exactly one of the two keys is present. */
  function AppFilter(q: map<EdgeId, Edge>, actor: UserId, flags: Flags): (r: map<EdgeId, Edge>)
    ensures flags.incoming == flags.outgoing ==> r == q
    ensures flags.incoming && !flags.outgoing ==> r == Incoming(q, actor)
    ensures flags.outgoing && !flags.incoming ==> r == Outgoing(q, actor)
  {
    if flags.incoming && !flags.outgoing then Incoming(q, actor)
    else if flags.outgoing && !flags.incoming then Outgoing(q, actor)
    else q
  }

  function DirectionFilter(variant: Variant, q: map<EdgeId, Edge>, actor: UserId, flags: Flags): map<EdgeId, Edge>
  {
    match variant
    case Api => ApiFilter(q, actor, flags)
    case App => AppFilter(q, actor, flags)
  }

  // ---------------------------------------------------------------------------
  // Properties
  // ---------------------------------------------------------------------------

  /** Either revision returns a subset of its input, rows unchanged. */
  lemma FilterNarrows(variant: Variant, q: map<EdgeId, Edge>, actor: UserId, flags: Flags)
    ensures var r := DirectionFilter(variant, q, actor, flags);
            r.Keys <= q.Keys && forall k :: k in r ==> r[k] == q[k]
  {
  }

  /** Applying a filter a second time with the same flags changes nothing. */
  lemma FilterIdempotent(variant: Variant, q: map<EdgeId, Edge>, actor: UserId, flags: Flags)
    ensures var r := DirectionFilter(variant, q, actor, flags);
            DirectionFilter(variant, r, actor, flags) == r
  {
  }

  /** With no flag set, neither revision narrows anything. */
  lemma NoFlagsUnchanged(variant: Variant, q: map<EdgeId, Edge>, actor: UserId)
    ensures DirectionFilter(variant, q, actor, NoFlags) == q
  {
  }

  /**
    In the `api` revision both flags compose into an intersection: edges the
    actor both sent and received. Without self-requests there are none.
   */
  lemma ApiBothFlagsEmpty(q: map<EdgeId, Edge>, actor: UserId)
    requires NoSelfEdges(q)
    ensures ApiFilter(q, actor, Flags(true, true)) == map[]
  {
    var r := ApiFilter(q, actor, Flags(true, true));
    assert forall k :: k !in r;
  }

  /** In the `app` revision both keys together return the set unchanged. */
  lemma AppBothFlagsUnchanged(q: map<EdgeId, Edge>, actor: UserId)
    ensures AppFilter(q, actor, Flags(true, true)) == q
  {
  }

  /**
    On a set of edges that all involve the actor and contain no self-request,
    the "incoming only" and "outgoing only" answers split it in two: they
    share no edge, together they are the whole set, and their sizes add up.
    This holds in both revisions.
   */
  lemma InOutPartition(variant: Variant, q: map<EdgeId, Edge>, actor: UserId)
    requires NoSelfEdges(q)
    requires forall k :: k in q ==> q[k].Involves(actor)
    ensures var ins := DirectionFilter(variant, q, actor, Flags(true, false));
            var outs := DirectionFilter(variant, q, actor, Flags(false, true));
            && ins.Keys !! outs.Keys
            && ins.Keys + outs.Keys == q.Keys
            && |ins| + |outs| == |q|
  {
  }
}

=== FILE: invariants.dfy ===
/**
  Every operation keeps the store invariant `Valid`. Two of its parts are
  database constraints: unique usernames and at most one edge per ordered
  (sender, recipient) pair. The rest are invariants the operations
  maintain: ids consistent and below the next one handed out, endpoints that
  are existing users, no self-requests, and stamps that never run ahead of
  the clock.
 */
module Invariants {
  import opened Results
  import opened Errors
  import opened Models
  import opened Filters
  import opened Serializers
  import opened Views

  lemma InsertPreservesValid(w: World, sender: UserId, recipient: UserId)
    requires Valid(w)
    requires sender in w.users && recipient in w.users && sender != recipient
    requires !PairExists(w.edges, sender, recipient)
    ensures Valid(InsertEdge(w, sender, recipient).world)
  {
    var r := InsertEdge(w, sender, recipient);
    var edges := r.world.edges;
    assert forall k :: k in w.edges ==> !(w.edges[k].sender == sender && w.edges[k].recipient == recipient);
    assert IdsConsistent(r.world);
    assert EndpointsExist(r.world);
    assert StampsOrdered(r.world);
    forall k1, k2 | k1 in edges && k2 in edges &&
                    edges[k1].sender == edges[k2].sender && edges[k1].recipient == edges[k2].recipient
      ensures k1 == k2
    {
      if k1 != r.edge.id && k2 != r.edge.id {
        assert w.edges[k1] == edges[k1] && w.edges[k2] == edges[k2];
      }
    }
  }

  /** Saving an edge that keeps its endpoints and creation stamp keeps the store invariant. */
  lemma SavePreservesValid(w: World, e: Edge)
    requires Valid(w)
    requires e.id in w.edges
    requires e.sender == w.edges[e.id].sender && e.recipient == w.edges[e.id].recipient
    requires e.createdAt == w.edges[e.id].createdAt
    ensures Valid(SaveEdge(w, e).world)
  {
    var r := SaveEdge(w, e);
    assert forall k :: k in r.world.edges ==>
      r.world.edges[k].sender == w.edges[k].sender && r.world.edges[k].recipient == w.edges[k].recipient;
  }

  lemma CreatePreservesValid(w: World, actor: UserId, body: CreateBody)
    requires Valid(w) && actor in w.users
    ensures CreateRequest(w, actor, body).Ok? ==> Valid(CreateRequest(w, actor, body).value.world)
  {
    match ValidateCreate(w, actor, body)
    case Err(_) =>
    case Ok(target) =>
      match MutualRequest(w.edges, actor, target)
      case Some(k) => SavePreservesValid(w, w.edges[k].(accept := Some(true)));
      case None => InsertPreservesValid(w, actor, target);
  }

  lemma RespondPreservesValid(w: World, variant: Variant, actor: UserId, flags: Flags, id: EdgeId,
                              decision: Option<bool>, partial: bool)
    requires Valid(w)
    ensures var r := Respond(w, variant, actor, flags, id, decision, partial);
            r.Ok? ==> Valid(r.value.world)
  {
    var r := Respond(w, variant, actor, flags, id, decision, partial);
    if r.Ok? {
      var accept := ValidateResponse(w.edges[id], actor, decision, partial).value;
      SavePreservesValid(w, w.edges[id].(accept := accept));
    }
  }

  lemma UnfriendPreservesValid(w: World, actor: UserId, id: EdgeId)
    requires Valid(w)
    ensures Unfriend(w, actor, id).Ok? ==> Valid(Unfriend(w, actor, id).value)
  {
  }

  lemma RegisterPreservesValid(w: World, name: string)
    requires Valid(w)
    ensures Register(w, name).Ok? ==> Valid(Register(w, name).value.world)
  {
    var r := Register(w, name);
    if r.Ok? {
      assert forall u :: u in w.users ==> w.users[u].username != Strip(name);
    }
  }

  /** The empty store, where every table starts, satisfies the store invariant. */
  lemma EmptyStoreValid()
    ensures Valid(World(map[], map[], 0, 0))
  {
  }

  /** The cascade leaves no edge pointing at the deleted user, so the foreign keys still resolve. */
  lemma DeleteUserPreservesValid(w: World, uid: UserId)
    requires Valid(w)
    ensures Valid(DeleteUser(w, uid))
  {
  }
}

=== FILE: models.dfy ===
/**
  The persistent state: users, friendship edges, and the bookkeeping every row
  inherits from the common base model (a fresh immutable id, a creation stamp
  and a modification stamp).

  The random UUID primary key is modelled by a counter `nextId`
  that is always above every id in use, and wall-clock time by a counter
  `clock` that every save advances.
 */
module Models {
  import opened Results
  import opened Errors

  type UserId = nat
  type EdgeId = nat
  type Stamp = nat

  /** Longest username the user table accepts. */
  const MaxUsernameLength: nat := 150

  datatype User = User(id: UserId, username: string)

  /**
    A directed friendship request from `sender` to `recipient`. `accept` is the
    nullable boolean column: None while pending, Some(true) once accepted,
    Some(false) once rejected.
   */
  datatype Edge = Edge(
    id: EdgeId,
    sender: UserId,
    recipient: UserId,
    accept: Option<bool>,
    createdAt: Stamp,
    updatedAt: Stamp)
  {
    predicate Involves(u: UserId) {
      sender == u || recipient == u
    }

    predicate IsPending() {
      accept == None
    }
  }

  datatype World = World(
    users: map<UserId, User>,
    edges: map<EdgeId, Edge>,
    nextId: nat,
    clock: Stamp)

  /** The outcome of saving an edge: the new state and the row as stored. */
  datatype Saved = Saved(world: World, edge: Edge)

  /** The outcome of registering a user. */
  datatype Registered = Registered(world: World, user: User)

  // ---------------------------------------------------------------------------
  // The store invariant: two database constraints (unique usernames, unique
  // ordered pairs) and the invariants the operations maintain
  // ---------------------------------------------------------------------------

  /** Every row is stored under its own id, and every id is below the next one handed out. */
  ghost predicate IdsConsistent(w: World) {
    && (forall u :: u in w.users ==> u < w.nextId && w.users[u].id == u)
    && (forall k :: k in w.edges ==> k < w.nextId && w.edges[k].id == k)
  }

  /** Foreign keys: both endpoints of every edge are existing users. */
  ghost predicate EndpointsExist(w: World) {
    forall k :: k in w.edges ==> w.edges[k].sender in w.users && w.edges[k].recipient in w.users
  }

  /** No edge goes from a user to themself. */
  ghost predicate NoSelfEdges(edges: map<EdgeId, Edge>) {
    forall k :: k in edges ==> edges[k].sender != edges[k].recipient
  }

  /** The unique-together constraint on the ordered pair (sender, recipient). */
  ghost predicate OrderedPairsUnique(edges: map<EdgeId, Edge>) {
    forall k1, k2 ::
      k1 in edges && k2 in edges &&
      edges[k1].sender == edges[k2].sender && edges[k1].recipient == edges[k2].recipient
      ==> k1 == k2
  }

  /** The unique constraint on usernames. */
  ghost predicate UsernamesUnique(users: map<UserId, User>) {
    forall u1, u2 :: u1 in users && u2 in users && users[u1].username == users[u2].username ==> u1 == u2
  }

  /** Stamps are never in the future and a row is never modified before it is created. */
  ghost predicate StampsOrdered(w: World) {
    forall k :: k in w.edges ==> w.edges[k].createdAt <= w.edges[k].updatedAt < w.clock
  }

  ghost predicate Valid(w: World) {
    && IdsConsistent(w)
    && EndpointsExist(w)
    && NoSelfEdges(w.edges)
    && OrderedPairsUnique(w.edges)
    && UsernamesUnique(w.users)
    && StampsOrdered(w)
  }

  // ---------------------------------------------------------------------------
  // Row-level persistence shared by every model
  // ---------------------------------------------------------------------------

  /**
    Insert a new edge. The row gets a fresh id, both stamps are set to the
    current time, and `accept` takes its column default (pending).
   */
  function InsertEdge(w: World, sender: UserId, recipient: UserId): (r: Saved)
    ensures r.edge.sender == sender && r.edge.recipient == recipient
    ensures r.edge.accept == None
    ensures r.edge.createdAt == r.edge.updatedAt == w.clock
    ensures IdsConsistent(w) ==> r.edge.id !in w.edges
    ensures IdsConsistent(w) ==> forall k :: k in w.edges ==> k < r.edge.id
    ensures r.world.edges == w.edges[r.edge.id := r.edge]
    ensures r.world.users == w.users
    ensures r.world.clock > w.clock && r.world.nextId > r.edge.id
  {
    var e := Edge(w.nextId, sender, recipient, None, w.clock, w.clock);
    Saved(w.(edges := w.edges[w.nextId := e], nextId := w.nextId + 1, clock := w.clock + 1), e)
  }

  /**
    Save a modified edge over the stored row with the same id: the
    modification stamp is refreshed, everything else is written as given.
   */
  function SaveEdge(w: World, e: Edge): (r: Saved)
    requires e.id in w.edges
    ensures r.edge == e.(updatedAt := w.clock)
    ensures r.world.edges == w.edges[e.id := r.edge]
    ensures r.world.edges.Keys == w.edges.Keys
    ensures r.world.users == w.users && r.world.nextId == w.nextId
    ensures StampsOrdered(w) ==> forall k :: k in w.edges ==> w.edges[k].updatedAt < r.edge.updatedAt
    ensures r.world.clock > r.edge.updatedAt
  {
    var e' := e.(updatedAt := w.clock);
    Saved(w.(edges := w.edges[e.id := e'], clock := w.clock + 1), e')
  }

  /** Delete one edge row; no other row is touched. */
  function DeleteEdge(w: World, id: EdgeId): (r: World)
    ensures r.edges.Keys == w.edges.Keys - {id}
    ensures forall k :: k in r.edges ==> r.edges[k] == w.edges[k]
    ensures r.users == w.users && r.nextId == w.nextId && r.clock == w.clock
  {
    w.(edges := w.edges - {id})
  }

  // ---------------------------------------------------------------------------
  // Users
  // ---------------------------------------------------------------------------

  /** The id of the user called `name`, when there is one (lowest id if several). */
  function LookupUsername(users: map<UserId, User>, name: string): (r: Option<UserId>)
    ensures r.None? <==> forall u :: u in users ==> users[u].username != name
    ensures r.Some? ==> r.value in users && users[r.value].username == name
    ensures r.Some? && UsernamesUnique(users) ==>
              forall u :: u in users && users[u].username == name ==> u == r.value
  {
    var matching := set u | u in users && users[u].username == name;
    if matching == {} then
      assert forall u :: u in users ==> users[u].username != name by {
        forall u | u in users ensures users[u].username != name {
          assert (u in matching) == (users[u].username == name);
        }
      }
      None
    else Some(MinOf(matching))
  }

  /**
    The characters Python's `str.isspace` accepts, which the text field's
    whitespace trimming removes from both ends of a value.
   */
  predicate IsWhitespace(c: char) {
    var n := c as int;
    || n == 0x20 || 0x09 <= n <= 0x0D || 0x1C <= n <= 0x1F || n == 0x85 || n == 0xA0
    || n == 0x1680 || 0x2000 <= n <= 0x200A || n == 0x2028 || n == 0x2029
    || n == 0x202F || n == 0x205F || n == 0x3000
  }

  /** `s` without its leading whitespace. */
  function TrimStart(s: string): (r: string)
    ensures |r| <= |s| && r == s[|s| - |r|..]
    ensures forall k :: 0 <= k < |s| - |r| ==> IsWhitespace(s[k])
    ensures r != [] ==> !IsWhitespace(r[0])
  {
    if s != [] && IsWhitespace(s[0]) then TrimStart(s[1..]) else s
  }

  /** `s` without its trailing whitespace. */
  function TrimEnd(s: string): (r: string)
    ensures |r| <= |s| && r == s[..|r|]
    ensures forall k :: |r| <= k < |s| ==> IsWhitespace(s[k])
    ensures r != [] ==> !IsWhitespace(r[|r| - 1])
  {
    if s != [] && IsWhitespace(s[|s| - 1]) then TrimEnd(s[..|s| - 1]) else s
  }

  /**
    The username as the field sees it: whitespace trimmed from both ends.
    The result is a contiguous piece of the input, everything cut off is
    whitespace, and it neither starts nor ends with whitespace.
   */
  function Strip(s: string): (r: string)
    ensures exists i, j :: 0 <= i <= j <= |s| && r == s[i..j] &&
              (forall k :: 0 <= k < i ==> IsWhitespace(s[k])) &&
              (forall k :: j <= k < |s| ==> IsWhitespace(s[k]))
    ensures r != [] ==> !IsWhitespace(r[0]) && !IsWhitespace(r[|r| - 1])
  {
    var t := TrimStart(s);
    var r := TrimEnd(t);
    assert r == s[|s| - |t|..|s| - |t| + |r|];
    r
  }

  /** Trimming twice is trimming once. */
  lemma StripIdempotent(s: string)
    ensures Strip(Strip(s)) == Strip(s)
  {
    var r := Strip(s);
    if r != [] {
      assert TrimStart(r) == r;
      assert TrimEnd(r) == r;
    }
  }

  /** A username the field accepts once trimmed: not blank, and at most 150 characters. */
  predicate UsernameAcceptable(name: string) {
    0 < |name| <= MaxUsernameLength
  }

  /**
    Register a user. The username is trimmed first; the trimmed name must be
    present, fit the column and be unused, and it is the name stored. On
    success exactly one user row is added, with a fresh id.
   */
  function Register(w: World, name: string): (r: Result<Registered, Error>)
    ensures !UsernameAcceptable(Strip(name)) ==> r == Err(InvalidUsername)
    ensures UsernameAcceptable(Strip(name)) && (exists u :: u in w.users && w.users[u].username == Strip(name)) ==>
              r == Err(UsernameTaken)
    ensures UsernameAcceptable(Strip(name)) && (forall u :: u in w.users ==> w.users[u].username != Strip(name)) ==>
              r.Ok?
    ensures r.Ok? ==> r.value.user.username == Strip(name)
    ensures r.Ok? ==> r.value.world.users == w.users[r.value.user.id := r.value.user]
    ensures r.Ok? && IdsConsistent(w) ==> r.value.user.id !in w.users
    ensures r.Ok? ==> r.value.world.edges == w.edges
  {
    var trimmed := Strip(name);
    if !UsernameAcceptable(trimmed) then Err(InvalidUsername)
    else if exists u :: u in w.users && w.users[u].username == trimmed then Err(UsernameTaken)
    else
      var user := User(w.nextId, trimmed);
      Ok(Registered(w.(users := w.users[w.nextId := user], nextId := w.nextId + 1), user))
  }

  /**
    Delete a user. Both foreign keys of an edge cascade, so every edge in
    which the user is sender or recipient goes with them; every other edge stays.
   */
  function DeleteUser(w: World, uid: UserId): (r: World)
    ensures r.users.Keys == w.users.Keys - {uid}
    ensures forall k :: k in r.edges <==> k in w.edges && !w.edges[k].Involves(uid)
    ensures forall k :: k in r.edges ==> r.edges[k] == w.edges[k]
  {
    w.(users := w.users - {uid},
       edges := map k | k in w.edges && !w.edges[k].Involves(uid) :: w.edges[k])
  }

  // ---------------------------------------------------------------------------
  // Smallest element, for `.first()` on a query ordered by primary key
  // ---------------------------------------------------------------------------

  /** `m` is the smallest element of `s`. */
  predicate IsLeast(m: nat, s: set<nat>) {
    m in s && forall x :: x in s ==> m <= x
  }

  function MinOf(s: set<nat>): (m: nat)
    requires s != {}
    ensures m in s && forall x :: x in s ==> m <= x
  {
    MinExists(s);
    var m :| IsLeast(m, s); m
  }

  lemma {:induction false} MinExists(s: set<nat>)
    requires s != {}
    ensures exists m :: IsLeast(m, s)
    decreases |s|
  {
    var y :| y in s;
    var rest := s - {y};
    if rest == {} {
      assert s == {y};
      assert IsLeast(y, s);
    } else {
      MinExists(rest);
      var m :| IsLeast(m, rest);
      var least := if y <= m then y else m;
      forall x | x in s ensures least <= x {
        if x != y { assert x in rest; }
      }
      assert IsLeast(least, s);
    }
  }
}

=== FILE: results.dfy ===
/** Optional values and typed outcomes shared by every module of the model. */
module Results {

  /** A value that may be absent; also the tri-state `accept` column (None = not yet decided). */
  datatype Option<+T> = None | Some(value: T)

  /** Either a successful value or a typed error, in place of raised exceptions. */
  datatype Result<+T, +E> = Ok(value: T) | Err(error: E)
}

=== FILE: serializers.dfy ===
/**
  Validation of incoming requests and the status label shown for an edge.
  Both revisions share this logic; only the name of the status column
  differs between them.
 */
module Serializers {
  import opened Results
  import opened Errors
  import opened Models
  import opened Filters

  /** The three status labels a relation is shown with. */
  datatype Label = Accepted | Waiting | Rejected

  /** Classification of the tri-state column: true, unset, false. */
  function Classify(accept: Option<bool>): (l: Label)
    ensures StatusOf(l) == accept
  {
    match accept
    case Some(true) => Accepted
    case None => Waiting
    case Some(false) => Rejected
  }

  /** The column value each label stands for. */
  function StatusOf(l: Label): Option<bool>
  {
    match l
    case Accepted => Some(true)
    case Waiting => None
    case Rejected => Some(false)
  }

  /**
    Classification is total and loses nothing: every column value gets a
    label, different values get different labels, and every label is used.
   */
  lemma ClassifyBijective(a: Option<bool>, l: Label)
    ensures StatusOf(Classify(a)) == a
    ensures Classify(StatusOf(l)) == l
    ensures Classify(a) == Accepted <==> a == Some(true)
    ensures Classify(a) == Waiting <==> a == None
    ensures Classify(a) == Rejected <==> a == Some(false)
  {
  }

  /**
    The body of a create request. Only `requestTo` is writable; `sender`
    and `accept` stand for anything else a client may send (the read-only
    sender and status fields), which the serializer drops.
   */
  datatype CreateBody = CreateBody(requestTo: Option<UserId>, sender: Option<UserId>, accept: Option<bool>)

  /**
    Validation of a create request, in the order the serializer runs it:
    the target field is required and must name an existing user; the
    unique-together check on (actor, target) runs next; the self-request
    check last. On success the validated recipient is returned.
   */
  function ValidateCreate(w: World, actor: UserId, body: CreateBody): (r: Result<UserId, Error>)
    ensures body.requestTo.None? ==> r == Err(FieldRequired)
    ensures body.requestTo.Some? && body.requestTo.value !in w.users ==> r == Err(UnknownTarget)
    ensures r.Ok? <==>
              && body.requestTo.Some?
              && body.requestTo.value in w.users
              && body.requestTo.value != actor
              && !PairExists(w.edges, actor, body.requestTo.value)
    ensures r.Ok? ==> r.value == body.requestTo.value
    ensures body.requestTo.Some? && body.requestTo.value in w.users && PairExists(w.edges, actor, body.requestTo.value) ==>
              r == Err(DuplicateRequest)
    ensures body.requestTo == Some(actor) && actor in w.users && !PairExists(w.edges, actor, actor) ==>
              r == Err(SelfRequest)
  {
    match body.requestTo
    case None => Err(FieldRequired)
    case Some(target) =>
      if target !in w.users then Err(UnknownTarget)
      else if PairExists(w.edges, actor, target) then Err(DuplicateRequest)
      else if target == actor then Err(SelfRequest)
      else Ok(target)
  }

  /** Whether some edge already goes from `sender` to `recipient`, whatever its status. */
  function PairExists(edges: map<EdgeId, Edge>, sender: UserId, recipient: UserId): (b: bool)
    ensures b <==> exists k :: k in edges && edges[k].sender == sender && edges[k].recipient == recipient
  {
    Incoming(Outgoing(edges, sender), recipient) != map[]
  }

  /**
    Validation of a decision on a request. The boolean decision is required
    unless the update is partial; only the recipient may decide. On success
    the new value of the status column is returned: the decision, or the
    stored value when a partial update carries none.
   */
  function ValidateResponse(e: Edge, actor: UserId, decision: Option<bool>, partial: bool): (r: Result<Option<bool>, Error>)
    ensures decision.None? && !partial ==> r == Err(FieldRequired)
    ensures (decision.Some? || partial) && actor != e.recipient ==> r == Err(NotRecipient)
    ensures r.Ok? <==> (decision.Some? || partial) && actor == e.recipient
    ensures r.Ok? && decision.Some? ==> r.value == decision
    ensures r.Ok? && decision.None? ==> r.value == e.accept
  {
    if decision.None? && !partial then Err(FieldRequired)
    else if actor != e.recipient then Err(NotRecipient)
    else if decision.Some? then Ok(decision)
    else Ok(e.accept)
  }
}

=== FILE: views.dfy ===
/**
  The friendship state machine behind the REST endpoints: creating a request
  (with mutual reconciliation), deciding a pending request, listing pending
  requests and accepted friendships, removing a friendship, and looking up
  the relation with a user by username.

  Every operation receives the already-authenticated actor and works on a
  store that satisfies the store invariant (`Valid`).
 */
module Views {
  import opened Results
  import opened Errors
  import opened Models
  import opened Filters
  import opened Serializers

  // ---------------------------------------------------------------------------
  // Query sets
  // ---------------------------------------------------------------------------

  /** The request viewset's query set: pending edges the actor sent or received. */
  function PendingFor(edges: map<EdgeId, Edge>, actor: UserId): (r: map<EdgeId, Edge>)
    ensures forall k :: k in r <==> k in edges && edges[k].accept == None && edges[k].Involves(actor)
    ensures forall k :: k in r ==> r[k] == edges[k]
  {
    map k | k in edges && edges[k].IsPending() && edges[k].Involves(actor) :: edges[k]
  }

  /** Edges between `a` and `b`, in either direction and with any status. */
  function Between(edges: map<EdgeId, Edge>, a: UserId, b: UserId): (r: map<EdgeId, Edge>)
    ensures forall k :: k in r <==>
              k in edges &&
              ((edges[k].sender == a && edges[k].recipient == b) || (edges[k].sender == b && edges[k].recipient == a))
    ensures forall k :: k in r ==> r[k] == edges[k]
  {
    map k | k in edges &&
            ((edges[k].sender == a && edges[k].recipient == b) || (edges[k].sender == b && edges[k].recipient == a))
          :: edges[k]
  }

  /** `.first()` on a query set: the row with the lowest primary key, if any. */
  function FirstKey(q: map<EdgeId, Edge>): (r: Option<EdgeId>)
    ensures r.None? <==> q == map[]
    ensures r.Some? ==> r.value in q && forall k :: k in q ==> r.value <= k
  {
    if q.Keys == {} then None else Some(MinOf(q.Keys))
  }

  /** The pending request the target has already sent to the actor, if there is one. */
  function MutualRequest(edges: map<EdgeId, Edge>, actor: UserId, target: UserId): (r: Option<EdgeId>)
    ensures r.Some? ==>
              && r.value in edges
              && edges[r.value].sender == target
              && edges[r.value].recipient == actor
              && edges[r.value].accept == None
    ensures r.None? <==>
              forall k :: k in edges && edges[k].sender == target && edges[k].recipient == actor ==>
                edges[k].accept != None
  {
    var q := map k | k in edges && edges[k].sender == target && edges[k].recipient == actor && edges[k].IsPending()
               :: edges[k];
    var first := FirstKey(q);
    assert first.None? ==> forall k :: k in edges && edges[k].sender == target && edges[k].recipient == actor ==>
                             edges[k].accept != None by {
      if first.None? {
        forall k | k in edges && edges[k].sender == target && edges[k].recipient == actor
          ensures edges[k].accept != None
        {
          assert (k in q) == edges[k].IsPending();
        }
      }
    }
    first
  }

  // ---------------------------------------------------------------------------
  // Friendship requests
  // ---------------------------------------------------------------------------

  /**
    Create a friendship request from the actor. After validation, a pending
    request the target already sent to the actor is accepted in place and
    returned; otherwise a new pending edge from the actor to the target is
    inserted and returned.
   */
  function CreateRequest(w: World, actor: UserId, body: CreateBody): (r: Result<Saved, Error>)
    requires Valid(w) && actor in w.users
    ensures r.Err? <==> ValidateCreate(w, actor, body).Err?
    ensures r.Err? ==> r.error == ValidateCreate(w, actor, body).error
    ensures r.Ok? ==> r.value.world.users == w.users
    ensures r.Ok? ==> r.value.edge.id in r.value.world.edges && r.value.world.edges[r.value.edge.id] == r.value.edge
    ensures r.Ok? ==>
              || (r.value.edge.sender == actor && Some(r.value.edge.recipient) == body.requestTo && r.value.edge.accept == None)
              || (r.value.edge.recipient == actor && Some(r.value.edge.sender) == body.requestTo && r.value.edge.accept == Some(true))
  {
    match ValidateCreate(w, actor, body)
    case Err(e) => Err(e)
    case Ok(target) =>
      match MutualRequest(w.edges, actor, target)
      case Some(k) => Ok(SaveEdge(w, w.edges[k].(accept := Some(true))))
      case None => Ok(InsertEdge(w, actor, target))
  }

  /** The list endpoint of the request viewset: the actor's pending edges, narrowed by the flags. */
  function ListPending(w: World, variant: Variant, actor: UserId, flags: Flags): (r: map<EdgeId, Edge>)
    ensures forall k :: k in r ==> k in w.edges && r[k] == w.edges[k] && w.edges[k].accept == None
    ensures forall k :: k in r ==> w.edges[k].Involves(actor)
  {
    DirectionFilter(variant, PendingFor(w.edges, actor), actor, flags)
  }

  /**
    Decide a request. The edge is looked up in the actor's (filtered) pending
    set, so a decided edge or one the actor is not party to is not found.
    Only the recipient may decide; the decision is then stored.
   */
  function Respond(w: World, variant: Variant, actor: UserId, flags: Flags, id: EdgeId, decision: Option<bool>, partial: bool)
    : (r: Result<Saved, Error>)
    requires Valid(w)
    ensures id !in ListPending(w, variant, actor, flags) ==> r == Err(NotFound)
    ensures r.Ok? ==> id in w.edges && r.value.edge.id == id
    ensures r.Ok? ==> actor == w.edges[id].recipient && w.edges[id].accept == None
    ensures r.Ok? && decision.Some? ==> r.value.edge.accept == decision
    ensures r.Ok? ==> r.value.world.edges == w.edges[id := r.value.edge]
    ensures r.Ok? ==> r.value.edge == w.edges[id].(accept := r.value.edge.accept, updatedAt := w.clock)
    ensures r.Ok? && decision.None? ==> r.value.edge.accept == w.edges[id].accept
  {
    var q := ListPending(w, variant, actor, flags);
    if id !in q then Err(NotFound)
    else
      match ValidateResponse(q[id], actor, decision, partial)
      case Err(e) => Err(e)
      case Ok(accept) => Ok(SaveEdge(w, q[id].(accept := accept)))
  }

  // ---------------------------------------------------------------------------
  // Friendships
  // ---------------------------------------------------------------------------

  /** The friendship viewset's query set and list: accepted edges the actor sent or received. */
  function ListAccepted(w: World, actor: UserId): (r: map<EdgeId, Edge>)
    ensures forall k :: k in r <==> k in w.edges && w.edges[k].accept == Some(true) && w.edges[k].Involves(actor)
    ensures forall k :: k in r ==> r[k] == w.edges[k]
  {
    map k | k in w.edges && w.edges[k].accept == Some(true) && w.edges[k].Involves(actor) :: w.edges[k]
  }

  /** Remove a friendship. Only edges in the actor's accepted set can be reached. */
  function Unfriend(w: World, actor: UserId, id: EdgeId): (r: Result<World, Error>)
    ensures id !in w.edges || w.edges[id].accept != Some(true) || !w.edges[id].Involves(actor) ==> r == Err(NotFound)
    ensures r.Ok? ==> r.value.edges.Keys == w.edges.Keys - {id} && id in w.edges
    ensures r.Ok? ==> forall k :: k in r.value.edges ==> r.value.edges[k] == w.edges[k]
    ensures r.Ok? ==> r.value.users == w.users
  {
    if id !in ListAccepted(w, actor) then Err(NotFound)
    else Ok(DeleteEdge(w, id))
  }

  // ---------------------------------------------------------------------------
  // Relation lookup
  // ---------------------------------------------------------------------------

  /** What the relation lookup shows: nothing, or an edge with its status label. */
  datatype Relation = NoRelation | Related(edge: Edge, status: Label)

  /**
    The relation between the actor and the user called `username`. An unknown
    username is not found. Otherwise an edge between the two, in either
    direction, is shown with its label; when there is none, the `api`
    revision answers not found and the `app` revision an empty success.
   */
  function QueryRelation(w: World, variant: Variant, actor: UserId, username: string): (r: Result<Relation, Error>)
    ensures LookupUsername(w.users, username).None? ==> r == Err(NotFound)
    ensures r.Ok? && r.value.Related? ==>
              && r.value.edge in w.edges.Values
              && r.value.status == Classify(r.value.edge.accept)
    ensures r.Ok? && r.value.Related? ==>
              && LookupUsername(w.users, username).Some?
              && var other := LookupUsername(w.users, username).value;
                 || (r.value.edge.sender == actor && r.value.edge.recipient == other)
                 || (r.value.edge.sender == other && r.value.edge.recipient == actor)
    ensures LookupUsername(w.users, username).Some? ==>
              var between := Between(w.edges, actor, LookupUsername(w.users, username).value);
              && (between != map[] ==> r.Ok? && r.value.Related? && r.value.edge in between.Values)
              && (between == map[] && variant == Api ==> r == Err(NotFound))
              && (between == map[] && variant == App ==> r == Ok(NoRelation))
  {
    match LookupUsername(w.users, username)
    case None => Err(NotFound)
    case Some(other) =>
      var between := Between(w.edges, actor, other);
      match FirstKey(between)
      case Some(k) => Ok(Related(between[k], Classify(between[k].accept)))
      case None =>
        match variant
        case Api => Err(NotFound)
        case App => Ok(NoRelation)
  }

  /** The HTTP status of a relation lookup: 200 with a relation, 204 for none, else the error's code. */
  function RelationStatusCode(r: Result<Relation, Error>): (code: nat)
    ensures r.Ok? && r.value.NoRelation? ==> code == 204
    ensures r.Ok? && r.value.Related? ==> code == 200
    ensures r.Err? ==> code == StatusCode(r.error)
  {
    match r
    case Ok(NoRelation) => 204
    case Ok(Related(_, _)) => 200
    case Err(e) => StatusCode(e)
  }
}
